=== FILE: README.md ===
# Snipe-IT suppliers API and user read model, in Dafny

This project models two small pieces of Snipe-IT's JSON API.

- The **suppliers API controller**. The listing normalises its query parameters: the sort column must be on an allow-list, the direction is `asc` only for the exact string `"asc"`, and offset and limit default to 0 and 50. It then selects the non-deleted rows the search matches, counts them before paging, and returns one offset/limit page. Create and update fill the record from the request and save it. Show looks a record up by id. Destroy refuses while the supplier still has assets, maintenances or licenses, checking them in that order. Otherwise it soft-deletes the record.
- The **users transformer**. It shapes one user into the API's row: nullable relations become `null` or `{id, name}`, `available_actions` follows the caller's permissions and the soft-delete state, and `groups` is `null` or `{total, rows}`. It also maps a page of users to rows one-to-one.

The suppliers table is a `map<int, Supplier>` plus an auto-increment counter (`SupplierModel.Table`). `SupplierModel.Valid` is the table invariant that every endpoint preserves: each row sits under its own id, and the counter is above every used id. Authorization answers are boolean inputs. A denial is the early result `Forbidden`. The record's validation on save is an opaque predicate `valid`. The text search is an opaque predicate `matches`. HTML escaping (`e()`) is an opaque function `esc`.

Modules: `Optional` (Option), `SupplierModel` (records, table, mass assignment, reply shapes), `SupplierIndex` (listing), `SupplierLifecycle` (create/show/update/destroy), `UsersTransformer`.

Lookups by id treat a soft-deleted supplier as not found. This matches the soft-delete scope of the Supplier model. That model file is not part of this model.

The transformer's `name` field follows the corrected definition under "## Findings" (both parts escaped). The source escapes only the first name.

## Model

| member | source | states |
|---|---|---|
| SupplierIndex.SortColumn | app/Http/Controllers/Api/SuppliersController.php:23-37 | the sort column is the requested one exactly when that one is on the allow-list `id, name, address, phone, contact, fax, email`, otherwise `created_at`; the result is always allowed or `created_at` |
| SupplierIndex.SortDirection | app/Http/Controllers/Api/SuppliersController.php:36 | the direction is ascending if and only if the request's `order` is exactly `"asc"`; otherwise descending |
| SupplierIndex.Normalise | app/Http/Controllers/Api/SuppliersController.php:30-37 | the search passes through unchanged; an absent offset becomes 0 and an absent limit 50, and given ones are kept; the sort is the requested column when it is allowed and `created_at` when it is absent or not allowed; the direction is ascending exactly for `"asc"` |
| SupplierIndex.NormaliseIsProjection | app/Http/Controllers/Api/SuppliersController.php:34-37 | sending back the normalised parameters, spelled out in full, normalises to the same query |
| SupplierIndex.Matching | app/Http/Controllers/Api/SuppliersController.php:27-32 | the selected rows are exactly the given rows that are not soft-deleted and, when a search was sent, that the search matches; there are never more of them than rows |
| SupplierIndex.MatchingConcat | app/Http/Controllers/Api/SuppliersController.php:27-32 | selecting from two sequences joined is selecting from each and joining the results, so the selection keeps the given order and every occurrence |
| SupplierIndex.MatchingSingle | app/Http/Controllers/Api/SuppliersController.php:27-32 | a single row is selected exactly when it is not deleted and matches the search |
| SupplierIndex.MatchingCountIgnoresOrder | app/Http/Controllers/Api/SuppliersController.php:38-40 | any rearrangement of the same rows selects the same number of them, so the count does not depend on the ORDER BY |
| SupplierIndex.CountMatching | app/Http/Controllers/Api/SuppliersController.php:40 | counting row by row gives the number of selected rows, before any paging |
| SupplierIndex.Page | app/Http/Controllers/Api/SuppliersController.php:41 | a page has at most `limit` rows, is empty past the end, and holds the rows starting at `offset`, in order |
| SupplierIndex.PageSplit | app/Http/Controllers/Api/SuppliersController.php:41 | two adjacent pages concatenated are the page spanning both |
| SupplierIndex.PagesCover | app/Http/Controllers/Api/SuppliersController.php:41 | fetching pages of one size from offset 0 returns the rows in order, each exactly once; enough pages return all of them |
| SupplierIndex.Index | app/Http/Controllers/Api/SuppliersController.php:20-42 | a denied caller gets `Forbidden`; otherwise the total is the number of non-deleted matching rows, the ORDER BY clause is the normalised one, and the page holds exactly `min(limit, total - offset)` rows (none past the end), namely the selected rows from the offset onward, in order |
| SupplierIndex.TotalIgnoresOrder | app/Http/Controllers/Api/SuppliersController.php:38-40 | two orderings of the same table report the same total |
| SupplierIndex.TotalIgnoresPaging | app/Http/Controllers/Api/SuppliersController.php:40-41 | two requests with the same search report the same total, whatever their offset and limit |
| SupplierModel.Fill | app/Http/Controllers/Api/SuppliersController.php:58 | mass assignment overwrites exactly the attributes the request carries, and a value sent as null clears that column; it keeps every other attribute, the id and the deleted state |
| SupplierModel.FillTwice | app/Http/Controllers/Api/SuppliersController.php:58 | filling with one request and then another equals filling once with both, the later request winning |
| SupplierLifecycle.DeletionBlocker | app/Http/Controllers/Api/SuppliersController.php:120-130 | no blocker if and only if all three counts are zero; a blocker carries a non-zero count of its association; a positive asset count is always the one reported; maintenances are reported only with no assets, licenses only with neither |
| SupplierLifecycle.DeletionBlockerScansInOrder | app/Http/Controllers/Api/SuppliersController.php:120-130 | the guard equals a scan over assets, maintenances, licenses in that order that stops at the first non-zero count |
| SupplierLifecycle.Store | app/Http/Controllers/Api/SuppliersController.php:54-64 | the reply is `Forbidden` exactly when denied, and then nothing changes; for an allowed caller the reply is success exactly when the filled record is valid, and a validation error with a null payload exactly when it is not, and then the table is unchanged; on success the payload is the very record that was filled and validated: it has a fresh id, is not deleted, carries exactly the request's non-null attributes, and it is the only row added; the table invariant is kept |
| SupplierLifecycle.Show | app/Http/Controllers/Api/SuppliersController.php:75-80 | `Forbidden` exactly when denied, `NotFound` exactly when no visible row has that id, otherwise that row |
| SupplierLifecycle.Update | app/Http/Controllers/Api/SuppliersController.php:92-103 | denial and not-found are exact and write nothing; for a visible row the reply is success exactly when the filled record is valid, otherwise a validation error that writes nothing; on success only that row changes: the request's attributes are overwritten, those sent as null cleared, the others kept, the row stays undeleted with the old and sent attributes less the cleared ones, the counter is unchanged, and the saved record is the payload |
| SupplierLifecycle.Destroy | app/Http/Controllers/Api/SuppliersController.php:113-134 | class permission first, then the lookup, then the record permission; when the guard finds a blocker the reply is exactly that error (assets before maintenances before licenses, with the count) and nothing is written; every error reply is the guard's; success with a null payload happens exactly when all three counts are zero, and then only that row is marked deleted, keys and counter unchanged |
| SupplierLifecycle.StoreThenShow | app/Http/Controllers/Api/SuppliersController.php:54-80 | after a successful create, showing the new id returns the saved record |
| SupplierLifecycle.UpdateThenShow | app/Http/Controllers/Api/SuppliersController.php:75-103 | after a successful update, showing that id returns the saved record and every other id shows as before |
| SupplierLifecycle.DeletedIsGone | app/Http/Controllers/Api/SuppliersController.php:113-134 | after a successful delete, showing or deleting that id answers not-found and the listing no longer selects the row |
| SupplierLifecycle.FailedRequestsChangeNothing | app/Http/Controllers/Api/SuppliersController.php:54-134 | every create, update or delete reply other than success leaves the table exactly as it was |
| UsersTransformer.CountCast | app/Http/Transformers/UsersTransformer.php:49-52 | a loaded count is reported as is; a count that was not loaded is reported as 0 |
| UsersTransformer.Summarise | app/Http/Transformers/UsersTransformer.php:31-44 | a relation renders as null exactly when it is absent, otherwise as its id and escaped name |
| UsersTransformer.SummariseRoundTrip | app/Http/Transformers/UsersTransformer.php:31-44 | with an escaper that changes nothing, a summary gives back exactly the relation it came from, or null for none |
| UsersTransformer.AvailableActions | app/Http/Transformers/UsersTransformer.php:59-64 | update, delete and clone are offered exactly when the update, delete and create permissions allow and the user is not soft-deleted; restore exactly when create allows and the user is soft-deleted; clone and restore are never both offered |
| UsersTransformer.CloneOrRestore | app/Http/Transformers/UsersTransformer.php:62-63 | with create permission exactly one of clone and restore is offered, and restore means the user is soft-deleted; without it neither is |
| UsersTransformer.GroupRows | app/Http/Transformers/UsersTransformer.php:73-79 | one row per group, in order, with the group's id and escaped name |
| UsersTransformer.GroupsField | app/Http/Transformers/UsersTransformer.php:69-84 | `groups` is null exactly when the user has no groups; otherwise its total is the number of groups, and there are that many rows carrying the groups' ids and escaped names in order |
| UsersTransformer.FullName | app/Http/Transformers/UsersTransformer.php:26-28 | the display name is the escaped first name, one space, then the escaped last name |
| UsersTransformer.NameAsWritten | app/Http/Transformers/UsersTransformer.php:26 | the display name as written: the escaped first name, one space, then the last name exactly as stored, not escaped |
| UsersTransformer.NameAsWrittenSkipsEscaping | app/Http/Transformers/UsersTransformer.php:26 | when escaping changes the last name, the name as written differs from the escaped one and ends in the raw last name |
| UsersTransformer.NameAsWrittenCounterexample | app/Http/Transformers/UsersTransformer.php:26 | for the last name `<b>`, the name as written is `Ann <b>` while the escaped name is `Ann &lt;b&gt;` |
| UsersTransformer.TransformUser | app/Http/Transformers/UsersTransformer.php:22-87 | id passes through; text fields are escaped; the four relations are null exactly when absent, else their id and escaped name; a job title is null unless present and truthy (not "" or "0"); activated is true exactly for the value "1"; each of the four counts is the loaded value or 0; the four actions follow the permissions and deletion state; groups are null exactly when there are none, and otherwise the total equals the number of groups and the rows carry the groups' ids and escaped names in order; the name is the corrected one from "## Findings" |
| UsersTransformer.RestoreChangesOnlyActions | app/Http/Transformers/UsersTransformer.php:59-64 | restoring a soft-deleted user changes nothing in its row but the actions: before, only restore (with create permission); after, update, delete and clone as permitted and no restore |
| UsersTransformer.TransformUsers | app/Http/Transformers/UsersTransformer.php:13-20 | exactly one row per user, in the same order, each the transform of that user; the total passes through unchanged |

## Left out

- The query builder, the database, `TextSearch` and `withCount` are not modelled. The search is an opaque predicate of a row and the term. The association counts are an input to `Destroy`.
- SupplierIndex.Index: how the database orders rows for the ORDER BY clause is not modelled (collation, NULL placement, ties). The rows are given in the order the database yields them, and the result records the clause it asked for.
- SupplierIndex.Normalise: offset and limit are non-negative integers here. Raw query strings and negative values are outside the model. The query builder ignores a negative limit. Whether an empty `search` counts as sent is the framework's decision; here a sent parameter is `Some`.
- SupplierModel.Fill: the request's attributes are limited to the supplier's columns, each sent with a value or as null. The model's mass-assignment allow-list is not part of this model, so ignored keys are not representable.
- SupplierLifecycle.Store: validation sees only the record. Rules that consult other rows, and the per-field error messages of `getErrors()`, are not modelled. A failed save is the bare `Invalid`.
- `created_at`/`updated_at` timestamps are not modelled, because they come from the clock.
- Authorization internals (`authorize`, `Gate::allows`) are outside this model. Their answers are boolean inputs.
- The exact `trans()` messages are left out. Errors are tagged with the blocking association and its count.
- `Helper::formatStandardApiResponse` and the JSON/HTTP plumbing are left out. The envelope is the `Envelope` datatype.
- The `SuppliersTransformer` presentation of show and index results is left out. Those endpoints return the record or the listing itself.
- `Helper::getFormattedDateObject` (`created_at`, `updated_at`, `last_login`) and `decodePermissions` (`permissions`) are foreign code that is not shown, so those fields are omitted from the user row. `two_factor_active()` is an input boolean.
- The `DatatablesTransformer` envelope is reduced to `{total, rows}`. `transformUsersDatatable` only forwards to it and is not modelled.
- UsersTransformer.TransformUser: `name` escapes the last name as well (the corrected `FullName`). Line 26 as written leaves it unescaped; `NameAsWritten` models that, see "## Findings".
- UsersTransformer.TransformUser: `activated` is compared with "1" as an exact string. PHP's loose `==` also accepts numeric strings such as "01" or "1.0" and the integer 1, which is not modelled.
- The time-of-check/time-of-use gap between the association count and the delete in destroy is not modelled, because it is a concurrency concern outside this sequential model.

## Findings

| source | as written | input that shows it | evidently intended | confidence | as-written member | corrected member |
|---|---|---|---|---|---|---|
| app/Http/Transformers/UsersTransformer.php:26 | `name` is the escaped first name, a space, and the last name without escaping; every other text field, including `lastname` on line 28, is escaped | last name `<b>`: `name` contains the raw markup `<b>` | `name` escapes the last name too | medium; not executed | UsersTransformer.NameAsWritten | UsersTransformer.FullName |

=== FILE: optional.dfy ===
/** A value that may be absent: PHP's `null` for a request parameter that was not sent,
    a nullable column or a relation that is not set. */
module Optional {

  datatype Option<+T> = None | Some(value: T) {

    /** The value, or `default` when absent (PHP's `$request->input($key, $default)`). */
    function GetOr(default: T): T
    {
      match this
      case Some(v) => v
      case None => default
    }
  }
}

=== FILE: supplier_index.dfy ===
/** The supplier listing: normalisation of the request's query parameters, the filter that
    decides which rows are listed, the count taken before paging, and offset/limit paging. */
module SupplierIndex {
  import opened Optional
  import opened SupplierModel

  /** The columns a caller may sort by. */
  const AllowedColumns: seq<string> := ["id", "name", "address", "phone", "contact", "fax", "email"]
  /** The sort column used when the requested one is absent or not allowed. */
  const DefaultSort: string := "created_at"
  const DefaultOffset: nat := 0
  const DefaultLimit: nat := 50

  datatype Direction = Asc | Desc

  /** The listing's query parameters as sent; `None` is a parameter that was not sent. */
  datatype ListRequest = ListRequest(
    search: Option<string>,
    offset: Option<nat>,
    limit: Option<nat>,
    sort: Option<string>,
    order: Option<string>)

  /** The parameters after normalisation: what the query is actually built from. */
  datatype ListQuery = ListQuery(search: Option<string>, sort: string, order: Direction, offset: nat, limit: nat)

  /** The spelling of a direction in an ORDER BY clause and in a request. */
  function DirectionName(d: Direction): string
  {
    match d
    case Asc => "asc"
    case Desc => "desc"
  }

  /** The effective sort column: the requested one when it is on the allow-list, the
      creation timestamp otherwise. */
  function SortColumn(requested: Option<string>): (col: string)
    ensures col in AllowedColumns || col == DefaultSort
    ensures col != DefaultSort <==> requested.Some? && requested.value in AllowedColumns
    ensures col != DefaultSort ==> col == requested.value
  {
    assert DefaultSort !in AllowedColumns;
    if requested.Some? && requested.value in AllowedColumns then requested.value else DefaultSort
  }

  /** The effective direction: ascending only for the exact string "asc". */
  function SortDirection(requested: Option<string>): (d: Direction)
    ensures d == Asc <==> requested == Some("asc")
  {
    if requested == Some("asc") then Asc else Desc
  }

  /** The whole normalisation of a listing request. */
  function Normalise(req: ListRequest): (q: ListQuery)
    ensures q.search == req.search
    ensures req.sort.Some? && req.sort.value in AllowedColumns ==> q.sort == req.sort.value
    ensures !(req.sort.Some? && req.sort.value in AllowedColumns) ==> q.sort == DefaultSort
    ensures (q.order == Asc) == (req.order == Some("asc"))
    ensures req.offset.None? ==> q.offset == 0
    ensures req.limit.None? ==> q.limit == 50
    ensures req.offset.Some? ==> q.offset == req.offset.value
    ensures req.limit.Some? ==> q.limit == req.limit.value
  {
    ListQuery(req.search, SortColumn(req.sort), SortDirection(req.order),
              req.offset.GetOr(DefaultOffset), req.limit.GetOr(DefaultLimit))
  }

  /** The request that spells out a normalised query in full. */
  function AsRequest(q: ListQuery): ListRequest
  {
    ListRequest(q.search, Some(q.offset), Some(q.limit), Some(q.sort), Some(DirectionName(q.order)))
  }

  /** Normalisation is a projection: sending back the parameters it chose, spelled out in
      full, yields the same query. */
  lemma NormaliseIsProjection(req: ListRequest)
    ensures Normalise(AsRequest(Normalise(req))) == Normalise(req)
  {
  }

  /** Whether a row belongs to the listing: not soft-deleted and, when a search term was
      sent, matched by the text search (an opaque predicate of the row and the term). */
  predicate Listed(s: Supplier, search: Option<string>, matches: (Supplier, string) -> bool)
  {
    !s.deleted && (search.None? || matches(s, search.value))
  }

  /** The rows the query selects before paging, in the order given. */
  function Matching(rows: seq<Supplier>, search: Option<string>, matches: (Supplier, string) -> bool): (r: seq<Supplier>)
    ensures |r| <= |rows|
    ensures forall s :: s in r ==> s in rows && Listed(s, search, matches)
    ensures forall s :: s in rows && Listed(s, search, matches) ==> s in r
  {
    if |rows| == 0 then []
    else
      var last := rows[|rows| - 1];
      assert rows == rows[..|rows| - 1] + [last];
      Matching(rows[..|rows| - 1], search, matches) + (if Listed(last, search, matches) then [last] else [])
  }

  /** Selection distributes over concatenation: the rows of each part are selected on
      their own and kept in order. */
  lemma {:induction false} MatchingConcat(a: seq<Supplier>, b: seq<Supplier>, search: Option<string>,
                                          matches: (Supplier, string) -> bool)
    ensures Matching(a + b, search, matches) == Matching(a, search, matches) + Matching(b, search, matches)
    decreases |b|
  {
    if |b| == 0 {
      assert a + b == a;
    } else {
      var b', x := b[..|b| - 1], b[|b| - 1];
      assert (a + b)[..|a + b| - 1] == a + b';
      MatchingConcat(a, b', search, matches);
    }
  }

  /** A single row is selected exactly when it is listed. */
  lemma MatchingSingle(x: Supplier, search: Option<string>, matches: (Supplier, string) -> bool)
    ensures Matching([x], search, matches) == if Listed(x, search, matches) then [x] else []
  {
    assert [x][..0] == [];
  }

  /** Removing the row at position `j` removes one occurrence of it. */
  lemma MultisetRemoveAt<T>(b: seq<T>, j: nat)
    requires j < |b|
    ensures multiset(b[..j] + b[j + 1..]) == multiset(b) - multiset{b[j]}
  {
    assert b == b[..j] + [b[j]] + b[j + 1..];
    assert multiset(b) == multiset(b[..j]) + multiset{b[j]} + multiset(b[j + 1..]);
  }

  /** Taking one row out of the middle takes out exactly its own contribution. */
  lemma MatchingRemoveAt(b: seq<Supplier>, j: nat, search: Option<string>, matches: (Supplier, string) -> bool)
    requires j < |b|
    ensures |Matching(b, search, matches)|
            == |Matching(b[..j] + b[j + 1..], search, matches)| + |Matching([b[j]], search, matches)|
  {
    var b1, x, b2 := b[..j], b[j], b[j + 1..];
    assert b == (b1 + [x]) + b2;
    MatchingConcat(b1 + [x], b2, search, matches);
    MatchingConcat(b1, [x], search, matches);
    MatchingConcat(b1, b2, search, matches);
  }

  /** The total does not depend on the order the database yields the rows in: any
      rearrangement of the same rows selects the same number of them. */
  lemma {:induction false} MatchingCountIgnoresOrder(a: seq<Supplier>, b: seq<Supplier>, search: Option<string>,
                                                     matches: (Supplier, string) -> bool)
    requires multiset(a) == multiset(b)
    ensures |Matching(a, search, matches)| == |Matching(b, search, matches)|
    decreases |a|
  {
    if |a| == 0 {
      assert |b| == |multiset(b)| == 0;
    } else {
      var a', x := a[..|a| - 1], a[|a| - 1];
      MultisetRemoveAt(a, |a| - 1);
      assert a[..|a| - 1] + a[|a|..] == a';
      assert x in multiset(b);
      var j :| 0 <= j < |b| && b[j] == x;
      MultisetRemoveAt(b, j);
      MatchingCountIgnoresOrder(a', b[..j] + b[j + 1..], search, matches);
      MatchingRemoveAt(b, j, search, matches);
      MatchingRemoveAt(a, |a| - 1, search, matches);
    }
  }

  /** The total the listing reports: the rows are counted one by one, before any paging. */
  method CountMatching(rows: seq<Supplier>, search: Option<string>, matches: (Supplier, string) -> bool)
    returns (n: nat)
    ensures n == |Matching(rows, search, matches)|
    ensures n <= |rows|
  {
    n := 0;
    var i := 0;
    while i < |rows|
      invariant 0 <= i <= |rows|
      invariant n == |Matching(rows[..i], search, matches)|
    {
      assert rows[..i + 1][..i] == rows[..i];
      if Listed(rows[i], search, matches) {
        n := n + 1;
      }
      i := i + 1;
    }
    assert rows[..i] == rows;
  }

  function Min(a: nat, b: nat): nat
  {
    if a <= b then a else b
  }

  /** Offset/limit paging: skip `offset` rows, then take at most `limit`. */
  function Page<T>(rows: seq<T>, offset: nat, limit: nat): (p: seq<T>)
    ensures |p| <= limit
    ensures |p| == if offset >= |rows| then 0 else Min(limit, |rows| - offset)
    ensures forall i :: 0 <= i < |p| ==> p[i] == rows[offset + i]
  {
    if offset >= |rows| then [] else rows[offset..offset + Min(limit, |rows| - offset)]
  }

  /** Two adjacent pages together form the page spanning both. */
  lemma PageSplit<T>(rows: seq<T>, offset: nat, a: nat, b: nat)
    ensures Page(rows, offset, a) + Page(rows, offset + a, b) == Page(rows, offset, a + b)
  {
  }

  /** The first `n` pages of size `size`, fetched one after the other from offset 0. */
  function Pages<T>(rows: seq<T>, size: nat, n: nat): seq<T>
  {
    if n == 0 then [] else Pages(rows, size, n - 1) + Page(rows, (n - 1) * size, size)
  }

  /** Walking the listing page by page yields its rows in order, each exactly once: the
      first `n` pages are the first `n * size` rows. */
  lemma {:induction false} PagesCover<T>(rows: seq<T>, size: nat, n: nat)
    ensures Pages(rows, size, n) == Page(rows, 0, n * size)
    ensures n * size >= |rows| ==> Pages(rows, size, n) == rows
  {
    if n == 0 {
      assert Page(rows, 0, 0) == [];
    } else {
      PagesCover(rows, size, n - 1);
      PageSplit(rows, 0, (n - 1) * size, size);
      assert (n - 1) * size + size == n * size;
    }
    if n * size >= |rows| {
      assert Page(rows, 0, n * size) == rows[0..|rows|];
      assert rows[0..|rows|] == rows;
    }
  }

  /** What the listing returns before presentation: the total, the page and the ORDER BY
      clause it asked the database for. */
  datatype Listing = Listing(total: nat, rows: seq<Supplier>, sort: string, order: Direction)

  /** The listing endpoint. `ordered` is the suppliers table as the database yields it for
      the effective ORDER BY clause; `allowed` is the authorization gate's answer. */
  function Index(allowed: bool, req: ListRequest, ordered: seq<Supplier>, matches: (Supplier, string) -> bool)
    : (r: Reply<Listing>)
    ensures r.Forbidden? <==> !allowed
    ensures !r.NotFound?
    ensures r.Ok? ==> r.body.total == |Matching(ordered, req.search, matches)|
    ensures r.Ok? ==> r.body.sort == SortColumn(req.sort) && r.body.order == SortDirection(req.order)
    ensures r.Ok? ==> |r.body.rows| == if Normalise(req).offset >= r.body.total then 0
                                       else Min(Normalise(req).limit, r.body.total - Normalise(req).offset)
    ensures r.Ok? ==> forall s :: s in r.body.rows ==> s in ordered && Listed(s, req.search, matches)
    ensures r.Ok? ==> forall i :: 0 <= i < |r.body.rows| ==>
              && Normalise(req).offset + i < r.body.total
              && r.body.rows[i] == Matching(ordered, req.search, matches)[Normalise(req).offset + i]
  {
    if !allowed then Forbidden
    else
      var q := Normalise(req);
      var selected := Matching(ordered, q.search, matches);
      var total := |selected|;
      Ok(Listing(total, Page(selected, q.offset, q.limit), q.sort, q.order))
  }

  /** The reported total depends only on the search, never on the paging parameters. */
  lemma TotalIgnoresPaging(req1: ListRequest, req2: ListRequest, ordered: seq<Supplier>,
                           matches: (Supplier, string) -> bool)
    requires req1.search == req2.search
    ensures Index(true, req1, ordered, matches).body.total == Index(true, req2, ordered, matches).body.total
  {
  }

  /** The listing's total is the same whatever order the database yields the table in. */
  lemma TotalIgnoresOrder(req: ListRequest, ordered1: seq<Supplier>, ordered2: seq<Supplier>,
                          matches: (Supplier, string) -> bool)
    requires multiset(ordered1) == multiset(ordered2)
    ensures Index(true, req, ordered1, matches).body.total == Index(true, req, ordered2, matches).body.total
  {
    MatchingCountIgnoresOrder(ordered1, ordered2, req.search, matches);
  }
}

=== FILE: supplier_lifecycle.dfy ===
/** The supplier endpoints that read or change one record: create, show, update and the
    association-guarded soft delete. Each takes the table and returns the new table with
    the reply. Authorization answers and the record's own validation are inputs. */
module SupplierLifecycle {
  import opened Optional
  import opened SupplierModel
  import SupplierIndex

  /** The association counts loaded with the record that is about to be deleted. */
  datatype Counts = Counts(assets: nat, maintenances: nat, licenses: nat)

  /** The order in which the deletion guards look at the associations. */
  const GuardOrder: seq<Association> := [Assets, Maintenances, Licenses]

  function CountOf(c: Counts, a: Association): nat
  {
    match a
    case Assets => c.assets
    case Maintenances => c.maintenances
    case Licenses => c.licenses
  }

  /** The deletion guard: assets first, then maintenances, then licenses; the first
      non-zero count blocks the deletion and is reported with its count. */
  function DeletionBlocker(c: Counts): (r: Option<Failure>)
    ensures r.None? <==> c.assets == 0 && c.maintenances == 0 && c.licenses == 0
    ensures r.Some? ==> r.value.Associated? && r.value.count == CountOf(c, r.value.kind) > 0
    ensures c.assets > 0 ==> r == Some(Associated(Assets, c.assets))
    ensures r.Some? && r.value.kind == Maintenances ==> c.assets == 0
    ensures r.Some? && r.value.kind == Licenses ==> c.assets == 0 && c.maintenances == 0
  {
    if c.assets > 0 then Some(Associated(Assets, c.assets))
    else if c.maintenances > 0 then Some(Associated(Maintenances, c.maintenances))
    else if c.licenses > 0 then Some(Associated(Licenses, c.licenses))
    else None
  }

  /** A reference definition of the guard: scan the associations in the given order and
      report the first one with records. */
  function FirstBlocking(c: Counts, order: seq<Association>): Option<Failure>
  {
    if |order| == 0 then None
    else if CountOf(c, order[0]) > 0 then Some(Associated(order[0], CountOf(c, order[0])))
    else FirstBlocking(c, order[1..])
  }

  /** The guard is exactly the in-order scan over assets, maintenances, licenses. */
  lemma DeletionBlockerScansInOrder(c: Counts)
    ensures DeletionBlocker(c) == FirstBlocking(c, GuardOrder)
  {
    var rest := GuardOrder[1..];
    assert rest == [Maintenances, Licenses];
    assert rest[1..] == [Licenses];
    assert rest[1..][1..] == [];
    assert FirstBlocking(c, rest[1..][1..]) == None;
    assert FirstBlocking(c, rest[1..]) == if c.licenses > 0 then Some(Associated(Licenses, c.licenses)) else None;
    assert FirstBlocking(c, rest) == if c.maintenances > 0 then Some(Associated(Maintenances, c.maintenances))
                                     else FirstBlocking(c, rest[1..]);
  }

  /** Create: construct a record, fill it from the request and save it. Save succeeds
      exactly when `valid` accepts the filled record; the new row takes the next id. */
  function Store(t: Table, allowed: bool, input: Request, valid: Supplier -> bool)
    : (r: (Table, Reply<Envelope>))
    requires Valid(t)
    ensures Valid(r.0)
    ensures !r.1.NotFound?
    ensures r.1.Forbidden? <==> !allowed
    ensures !allowed ==> r == (t, Forbidden)
    ensures r.1 == Ok(Error(Invalid)) <==> allowed && !valid(Fill(Blank(t.nextId), input))
    ensures (r.1.Ok? && r.1.body.Success?) <==> allowed && valid(Fill(Blank(t.nextId), input))
    ensures r.1 == Ok(Error(Invalid)) ==> r.0 == t
    ensures r.1.Ok? ==> r.1.body == Error(Invalid) || r.1.body.Success?
    ensures r.1.Ok? && r.1.body.Success? ==>
              && r.1.body.payload.Some?
              && var s := r.1.body.payload.value;
              && s == Fill(Blank(t.nextId), input)
              && valid(s)
              && s.id !in t.rows
              && !s.deleted
              && (forall a :: a in input && input[a].Some? ==> a in s.attrs && s.attrs[a] == input[a].value)
              && s.attrs.Keys == input.Keys - Cleared(input)
              && r.0.rows == t.rows[s.id := s]
              && r.0.nextId > s.id
  {
    if !allowed then (t, Forbidden)
    else
      var s := Fill(Blank(t.nextId), input);
      if valid(s) then
        (Table(t.rows[s.id := s], t.nextId + 1), Ok(Success(Some(s))))
      else
        (t, Ok(Error(Invalid)))
  }

  /** Show: the visible record with that id, or not-found. */
  function Show(t: Table, allowed: bool, id: int): (r: Reply<Supplier>)
    ensures !allowed <==> r.Forbidden?
    ensures r.NotFound? <==> allowed && !Visible(t, id)
    ensures r.Ok? ==> id in t.rows && r.body == t.rows[id] && !r.body.deleted
  {
    if !allowed then Forbidden
    else if !Visible(t, id) then NotFound
    else Ok(t.rows[id])
  }

  /** Update: load the record (not-found when there is none), fill it from the request and
      save it; on a failed save nothing is written. */
  function Update(t: Table, allowed: bool, id: int, input: Request, valid: Supplier -> bool)
    : (r: (Table, Reply<Envelope>))
    requires Valid(t)
    ensures Valid(r.0)
    ensures r.1.Forbidden? <==> !allowed
    ensures r.1.NotFound? <==> allowed && !Visible(t, id)
    ensures !r.1.Ok? ==> r.0 == t
    ensures r.1.Ok? ==> r.1.body == Error(Invalid) || r.1.body.Success?
    ensures r.1 == Ok(Error(Invalid)) ==> r.0 == t
    ensures (r.1.Ok? && r.1.body.Success?) <==> allowed && Visible(t, id) && valid(Fill(t.rows[id], input))
    ensures r.1 == Ok(Error(Invalid)) <==> allowed && Visible(t, id) && !valid(Fill(t.rows[id], input))
    ensures r.1.Ok? && r.1.body.Success? ==>
              && r.1.body.payload.Some?
              && var s := r.1.body.payload.value;
              && s.id == id && id in t.rows
              && valid(s)
              && !s.deleted
              && s.attrs.Keys == t.rows[id].attrs.Keys + input.Keys - Cleared(input)
              && r.0.nextId == t.nextId
              && (forall a :: a in input && input[a].Some? ==> a in s.attrs && s.attrs[a] == input[a].value)
              && (forall a :: a in input && input[a].None? ==> a !in s.attrs)
              && (forall a :: a in t.rows[id].attrs && a !in input ==> a in s.attrs && s.attrs[a] == t.rows[id].attrs[a])
              && r.0.rows.Keys == t.rows.Keys
              && r.0.rows[id] == s
              && (forall k :: k in t.rows && k != id ==> r.0.rows[k] == t.rows[k])
  {
    if !allowed then (t, Forbidden)
    else if !Visible(t, id) then (t, NotFound)
    else
      var s := Fill(t.rows[id], input);
      if valid(s) then (t.(rows := t.rows[id := s]), Ok(Success(Some(s))))
      else (t, Ok(Error(Invalid)))
  }

  /** Destroy: the class-level delete permission, then the lookup, then the permission on
      that very record, then the association guard; only a record with no associated
      assets, maintenances or licenses is soft-deleted. */
  function Destroy(t: Table, classAllowed: bool, id: int, recordAllowed: bool, counts: Counts)
    : (r: (Table, Reply<Envelope>))
    requires Valid(t)
    ensures Valid(r.0)
    ensures !classAllowed ==> r == (t, Forbidden)
    ensures classAllowed && !Visible(t, id) ==> r == (t, NotFound)
    ensures classAllowed && Visible(t, id) && !recordAllowed ==> r == (t, Forbidden)
    ensures r.1.Ok? && r.1.body.Error? ==> r.0 == t && Some(r.1.body.failure) == DeletionBlocker(counts)
    ensures classAllowed && Visible(t, id) && recordAllowed && DeletionBlocker(counts).Some? ==>
              r == (t, Ok(Error(DeletionBlocker(counts).value)))
    ensures classAllowed && Visible(t, id) && recordAllowed && counts.assets > 0 ==>
              r == (t, Ok(Error(Associated(Assets, counts.assets))))
    ensures r.1 == Ok(Success(None)) <==>
              classAllowed && Visible(t, id) && recordAllowed
              && counts.assets == 0 && counts.maintenances == 0 && counts.licenses == 0
    ensures r.1.Ok? ==> r.1.body == Success(None) || r.1.body.Error?
    ensures r.1 == Ok(Success(None)) ==>
              && r.0.nextId == t.nextId
              && r.0.rows.Keys == t.rows.Keys
              && r.0.rows[id] == t.rows[id].(deleted := true)
              && (forall k :: k in t.rows && k != id ==> r.0.rows[k] == t.rows[k])
  {
    if !classAllowed then (t, Forbidden)
    else if !Visible(t, id) then (t, NotFound)
    else if !recordAllowed then (t, Forbidden)
    else match DeletionBlocker(counts)
      case Some(f) => (t, Ok(Error(f)))
      case None => (t.(rows := t.rows[id := t.rows[id].(deleted := true)]), Ok(Success(None)))
  }

  /** A deleted supplier is gone for every later request: looking it up, updating it or
      deleting it again answers not-found, and the listing no longer selects it. */
  lemma DeletedIsGone(t: Table, id: int, recordAllowed: bool, counts: Counts,
                      search: Option<string>, matches: (Supplier, string) -> bool)
    requires Valid(t)
    requires Destroy(t, true, id, recordAllowed, counts).1 == Ok(Success(None))
    ensures var t' := Destroy(t, true, id, recordAllowed, counts).0;
      && Show(t', true, id) == NotFound
      && Destroy(t', true, id, recordAllowed, counts) == (t', NotFound)
      && !SupplierIndex.Listed(t'.rows[id], search, matches)
  {
  }

  /** Whether a reply reports a successful write. */
  predicate Succeeded(reply: Reply<Envelope>)
  {
    reply.Ok? && reply.body.Success?
  }

  /** Every reply other than success leaves the table exactly as it was: a denial, a
      failed lookup, a failed save or a blocked deletion writes nothing. */
  lemma FailedRequestsChangeNothing(t: Table, allowed: bool, id: int, input: Request,
                                    valid: Supplier -> bool, recordAllowed: bool, counts: Counts)
    requires Valid(t)
    ensures var (t', reply) := Store(t, allowed, input, valid); !Succeeded(reply) ==> t' == t
    ensures var (t', reply) := Update(t, allowed, id, input, valid); !Succeeded(reply) ==> t' == t
    ensures var (t', reply) := Destroy(t, allowed, id, recordAllowed, counts); !Succeeded(reply) ==> t' == t
  {
  }

  /** A created supplier can be read back: showing the new id returns the saved record. */
  lemma StoreThenShow(t: Table, input: Request, valid: Supplier -> bool)
    requires Valid(t)
    requires Succeeded(Store(t, true, input, valid).1)
    ensures var (t', reply) := Store(t, true, input, valid);
      var s := reply.body.payload.value;
      Show(t', true, s.id) == Ok(s)
  {
  }

  /** An updated supplier reads back as saved, and every other id reads as before. */
  lemma UpdateThenShow(t: Table, id: int, other: int, input: Request, valid: Supplier -> bool)
    requires Valid(t)
    requires Succeeded(Update(t, true, id, input, valid).1)
    ensures var (t', reply) := Update(t, true, id, input, valid);
      && Show(t', true, id) == Ok(reply.body.payload.value)
      && (other != id ==> Show(t', true, other) == Show(t, true, other))
  {
  }
}

=== FILE: supplier_model.dfy ===
/** The supplier record, the in-memory suppliers table and the shape of the API's replies. */
module SupplierModel {
  import opened Optional

  /** The supplier columns this model represents: those the listing selects besides the id
      and the timestamps. */
  datatype Attribute = Name | Address | Address2 | City | State | Country | Fax | Phone | Email | Contact

  /** One row of the suppliers table; `deleted` stands for a non-null `deleted_at`. Columns
      never filled are absent from `attrs` (they are NULL). */
  datatype Supplier = Supplier(id: int, attrs: map<Attribute, string>, deleted: bool)

  /** The table: rows keyed by primary key, and the auto-increment counter that numbers
      the next insert. */
  datatype Table = Table(rows: map<int, Supplier>, nextId: int)

  /** The table invariant every operation keeps: each row sits under its own id, and the
      auto-increment counter is above every id already used. */
  predicate Valid(t: Table)
  {
    forall k :: k in t.rows ==> t.rows[k].id == k && k < t.nextId
  }

  /** A row a lookup by id can see: present and not soft-deleted. */
  predicate Visible(t: Table, id: int)
  {
    id in t.rows && !t.rows[id].deleted
  }

  /** A freshly constructed supplier, before anything is filled in. */
  function Blank(id: int): Supplier
  {
    Supplier(id, map[], false)
  }

  /** The attributes of a mutation request: a value for each column sent, `None` for a
      column sent as null. */
  type Request = map<Attribute, Option<string>>

  /** The columns a request sends as null. */
  function Cleared(input: Request): set<Attribute>
  {
    set a | a in input && input[a].None?
  }

  /** Mass assignment (`fill`): every attribute the request carries overwrites the record's
      value, and one sent as null clears the column; every other attribute, the id and the
      soft-delete state are kept. */
  function Fill(s: Supplier, input: Request): (r: Supplier)
    ensures r.id == s.id && r.deleted == s.deleted
    ensures r.attrs.Keys == s.attrs.Keys + input.Keys - Cleared(input)
    ensures forall a :: a in input && input[a].Some? ==> a in r.attrs && r.attrs[a] == input[a].value
    ensures forall a :: a in input && input[a].None? ==> a !in r.attrs
    ensures forall a :: a in s.attrs && a !in input ==> a in r.attrs && r.attrs[a] == s.attrs[a]
  {
    s.(attrs := map a | a in s.attrs.Keys + input.Keys && a !in Cleared(input) ::
                  if a in input then input[a].value else s.attrs[a])
  }

  /** Filling twice is filling once with both requests, the later one winning. */
  lemma FillTwice(s: Supplier, first: Request, second: Request)
    ensures Fill(Fill(s, first), second) == Fill(s, first + second)
  {
  }

  /** An HTTP-level outcome: an authorization denial, a failed lookup by id (both raised
      before any data is produced), or an answer. */
  datatype Reply<+T> = Forbidden | NotFound | Ok(body: T)

  /** The association whose records block a deletion. */
  datatype Association = Assets | Maintenances | Licenses

  /** Why a mutation was refused: the record failed validation on save, or it still has
      `count` associated records of kind `kind`. */
  datatype Failure = Invalid | Associated(kind: Association, count: nat)

  /** The standard API envelope of a mutation: `success` with a payload that may be null,
      or `error`, whose payload is always null. */
  datatype Envelope = Success(payload: Option<Supplier>) | Error(failure: Failure)
}

=== FILE: users_transformer.dfy ===
/** The read model of a user: how one user record, with its relations and the caller's
    authorization answers, is shaped into the API's row, and how a page of users becomes
    a `{total, rows}` envelope. HTML escaping (`e()`) is an opaque function `esc`. */
module UsersTransformer {
  import opened Optional

  /** A related record: its id and the text shown as its name (the username for a manager,
      the name for a department, location, company or group). */
  datatype Related = Related(id: int, display: string)

  /** A user as loaded, with its relations. `activated` is the column's value as read;
      `deletedAt` the soft-delete timestamp; a count that was not loaded is `None`. */
  datatype User = User(
    id: int,
    firstName: string,
    lastName: string,
    username: string,
    employeeNum: string,
    manager: Option<Related>,
    jobtitle: Option<string>,
    email: string,
    department: Option<Related>,
    location: Option<Related>,
    notes: string,
    activated: string,
    twoFactorActive: bool,
    assetsCount: Option<nat>,
    licensesCount: Option<nat>,
    accessoriesCount: Option<nat>,
    consumablesCount: Option<nat>,
    company: Option<Related>,
    deletedAt: Option<string>,
    groups: seq<Related>)

  /** The authorization gate's answers for the current caller on the user class. */
  datatype GateAnswers = GateAnswers(update: bool, delete: bool, create: bool)

  /** The `{id, name}` object a relation renders as. */
  datatype Summary = Summary(id: int, name: string)

  datatype Actions = Actions(update: bool, delete: bool, clone: bool, restore: bool)

  /** The `groups` envelope: how many groups, and one summary per group. */
  datatype Groups = Groups(total: nat, rows: seq<Summary>)

  /** The transformed user row. */
  datatype UserRow = UserRow(
    id: int,
    name: string,
    firstname: string,
    lastname: string,
    username: string,
    employeeNum: string,
    manager: Option<Summary>,
    jobtitle: Option<string>,
    email: string,
    department: Option<Summary>,
    location: Option<Summary>,
    notes: string,
    activated: bool,
    twoFactorActivated: bool,
    assetsCount: nat,
    licensesCount: nat,
    accessoriesCount: nat,
    consumablesCount: nat,
    company: Option<Summary>,
    availableActions: Actions,
    groups: Option<Groups>)

  /** The paginated envelope of a list of rows. */
  datatype Datatable = Datatable(total: int, rows: seq<UserRow>)

  /** PHP truthiness of a string: the empty string and "0" are false. */
  predicate Truthy(s: string)
  {
    s != "" && s != "0"
  }

  /** Soft-deleted: `deleted_at == ''` is false, i.e. the timestamp is set and not empty
      (under PHP's loose comparison a null timestamp equals ''). */
  predicate SoftDeleted(u: User)
  {
    u.deletedAt.Some? && u.deletedAt.value != ""
  }

  /** An integer cast of a count: a count that was not loaded is null, which casts to 0. */
  function CountCast(c: Option<nat>): (n: nat)
    ensures c.Some? ==> n == c.value
    ensures c.None? ==> n == 0
  {
    c.GetOr(0)
  }

  /** A nullable relation rendered as `null` or `{id, name}` with the name escaped. */
  function Summarise(rel: Option<Related>, esc: string -> string): (r: Option<Summary>)
    ensures r.None? <==> rel.None?
    ensures r.Some? ==> r.value.id == rel.value.id && r.value.name == esc(rel.value.display)
  {
    match rel
    case None => None
    case Some(x) => Some(Summary(x.id, esc(x.display)))
  }

  /** With an escaper that changes nothing, a summary gives back the relation it came from. */
  lemma SummariseRoundTrip(rel: Option<Related>)
    ensures var r := Summarise(rel, (s: string) => s);
      (match r case None => None case Some(x) => Some(Related(x.id, x.name))) == rel
  {
  }

  /** The caller's available actions on this user: update, delete and clone need the
      corresponding permission (clone needs create) and a user that is not soft-deleted;
      restore needs create and a soft-deleted user. */
  function AvailableActions(g: GateAnswers, u: User): (a: Actions)
    ensures a.update <==> g.update && !SoftDeleted(u)
    ensures a.delete <==> g.delete && !SoftDeleted(u)
    ensures a.clone <==> g.create && !SoftDeleted(u)
    ensures a.restore <==> g.create && SoftDeleted(u)
    ensures !(a.clone && a.restore)
  {
    Actions(g.update && !SoftDeleted(u), g.delete && !SoftDeleted(u),
            g.create && !SoftDeleted(u), g.create && SoftDeleted(u))
  }

  /** With create permission, exactly one of clone and restore is offered, and which one
      tells whether the user is soft-deleted; without it, neither is. */
  lemma CloneOrRestore(g: GateAnswers, u: User)
    ensures var a := AvailableActions(g, u);
      && (g.create ==> (a.clone != a.restore) && (a.restore <==> SoftDeleted(u)))
      && (!g.create ==> !a.clone && !a.restore)
  {
  }

  /** The group rows, built one group at a time in the order the groups are given. */
  function GroupRows(groups: seq<Related>, esc: string -> string): (rows: seq<Summary>)
    ensures |rows| == |groups|
    ensures forall i :: 0 <= i < |groups| ==> rows[i] == Summary(groups[i].id, esc(groups[i].display))
  {
    if |groups| == 0 then []
    else GroupRows(groups[..|groups| - 1], esc) + [Summary(groups[|groups| - 1].id, esc(groups[|groups| - 1].display))]
  }

  /** The `groups` field: null for a user with no groups, otherwise the count and the rows. */
  function GroupsField(groups: seq<Related>, esc: string -> string): (r: Option<Groups>)
    ensures r.None? <==> |groups| == 0
    ensures r.Some? ==> r.value.total == |groups| == |r.value.rows|
    ensures r.Some? ==> forall i :: 0 <= i < |groups| ==>
              r.value.rows[i].id == groups[i].id && r.value.rows[i].name == esc(groups[i].display)
  {
    if |groups| > 0 then Some(Groups(|groups|, GroupRows(groups, esc))) else None
  }

  /** The display name as the transformer builds it: escaped first name, a space, and the
      last name WITHOUT escaping. */
  function NameAsWritten(u: User, esc: string -> string): (name: string)
    ensures |name| == |esc(u.firstName)| + 1 + |u.lastName|
    ensures name[..|esc(u.firstName)|] == esc(u.firstName)
    ensures name[|esc(u.firstName)|] == ' '
    ensures name[|esc(u.firstName)| + 1..] == u.lastName
  {
    esc(u.firstName) + " " + u.lastName
  }

  /** The display name as intended: escaped first name, a single space, escaped last name. */
  function FullName(u: User, esc: string -> string): (name: string)
    ensures |name| == |esc(u.firstName)| + 1 + |esc(u.lastName)|
    ensures name[..|esc(u.firstName)|] == esc(u.firstName)
    ensures name[|esc(u.firstName)|] == ' '
    ensures name[|esc(u.firstName)| + 1..] == esc(u.lastName)
  {
    esc(u.firstName) + " " + esc(u.lastName)
  }

  /** The display name as written passes the last name through raw: whenever escaping
      changes the last name, the rendered name differs from the escaped one and ends with
      the unescaped text. */
  lemma NameAsWrittenSkipsEscaping(u: User, esc: string -> string)
    requires esc(u.lastName) != u.lastName
    ensures NameAsWritten(u, esc) != FullName(u, esc)
    ensures var n := NameAsWritten(u, esc); n[|n| - |u.lastName|..] == u.lastName
  {
  }

  /** A concrete instance: escaping `<` as `&lt;`, a last name `<b>` comes out raw. */
  lemma NameAsWrittenCounterexample()
    ensures var esc := (s: string) => if s == "<b>" then "&lt;b&gt;" else s;
      var u := User(1, "Ann", "<b>", "ann", "", None, None, "", None, None, "", "1", false,
                    None, None, None, None, None, None, []);
      NameAsWritten(u, esc) == "Ann <b>" && FullName(u, esc) == "Ann &lt;b&gt;"
  {
  }

  /** One user shaped into its row. `esc` is the HTML escaping applied to text fields. */
  function TransformUser(u: User, g: GateAnswers, esc: string -> string): (r: UserRow)
    ensures r.id == u.id
    ensures r.name == FullName(u, esc)
    ensures r.firstname == esc(u.firstName) && r.lastname == esc(u.lastName)
    ensures r.username == esc(u.username) && r.employeeNum == esc(u.employeeNum)
    ensures r.email == esc(u.email) && r.notes == esc(u.notes)
    ensures r.manager.None? <==> u.manager.None?
    ensures r.department.None? <==> u.department.None?
    ensures r.location.None? <==> u.location.None?
    ensures r.company.None? <==> u.company.None?
    ensures r.manager.Some? ==> r.manager.value == Summary(u.manager.value.id, esc(u.manager.value.display))
    ensures r.department.Some? ==> r.department.value == Summary(u.department.value.id, esc(u.department.value.display))
    ensures r.location.Some? ==> r.location.value == Summary(u.location.value.id, esc(u.location.value.display))
    ensures r.company.Some? ==> r.company.value == Summary(u.company.value.id, esc(u.company.value.display))
    ensures r.jobtitle.Some? <==> u.jobtitle.Some? && Truthy(u.jobtitle.value)
    ensures r.jobtitle.Some? ==> r.jobtitle.value == esc(u.jobtitle.value)
    ensures r.activated <==> u.activated == "1"
    ensures r.twoFactorActivated == u.twoFactorActive
    ensures u.assetsCount.None? ==> r.assetsCount == 0
    ensures u.assetsCount.Some? ==> r.assetsCount == u.assetsCount.value
    ensures r.licensesCount == CountCast(u.licensesCount)
    ensures r.accessoriesCount == CountCast(u.accessoriesCount)
    ensures r.consumablesCount == CountCast(u.consumablesCount)
    ensures r.availableActions.update <==> g.update && !SoftDeleted(u)
    ensures r.availableActions.delete <==> g.delete && !SoftDeleted(u)
    ensures r.availableActions.restore <==> g.create && SoftDeleted(u)
    ensures r.availableActions.clone <==> g.create && !SoftDeleted(u)
    ensures r.groups.None? <==> |u.groups| == 0
    ensures r.groups.Some? ==> r.groups.value.total == |u.groups| == |r.groups.value.rows|
    ensures r.groups.Some? ==> forall i :: 0 <= i < |u.groups| ==>
              r.groups.value.rows[i] == Summary(u.groups[i].id, esc(u.groups[i].display))
  {
    UserRow(
      id := u.id,
      name := FullName(u, esc),
      firstname := esc(u.firstName),
      lastname := esc(u.lastName),
      username := esc(u.username),
      employeeNum := esc(u.employeeNum),
      manager := Summarise(u.manager, esc),
      jobtitle := if u.jobtitle.Some? && Truthy(u.jobtitle.value) then Some(esc(u.jobtitle.value)) else None,
      email := esc(u.email),
      department := Summarise(u.department, esc),
      location := Summarise(u.location, esc),
      notes := esc(u.notes),
      activated := u.activated == "1",
      twoFactorActivated := u.twoFactorActive,
      assetsCount := CountCast(u.assetsCount),
      licensesCount := CountCast(u.licensesCount),
      accessoriesCount := CountCast(u.accessoriesCount),
      consumablesCount := CountCast(u.consumablesCount),
      company := Summarise(u.company, esc),
      availableActions := AvailableActions(g, u),
      groups := GroupsField(u.groups, esc))
  }

  /** Restoring a user changes nothing in its row but the actions: with create permission,
      restore is offered before and clone after. */
  lemma RestoreChangesOnlyActions(u: User, g: GateAnswers, esc: string -> string)
    requires SoftDeleted(u)
    ensures var before, after := TransformUser(u, g, esc), TransformUser(u.(deletedAt := None), g, esc);
      && after == before.(availableActions := after.availableActions)
      && before.availableActions == Actions(false, false, false, g.create)
      && after.availableActions == Actions(g.update, g.delete, g.create, false)
  {
  }

  /** A page of users: one row per user, in order, wrapped with the total as given. */
  method TransformUsers(users: seq<User>, total: int, g: GateAnswers, esc: string -> string)
    returns (d: Datatable)
    ensures d.total == total
    ensures |d.rows| == |users|
    ensures forall i :: 0 <= i < |users| ==> d.rows[i] == TransformUser(users[i], g, esc)
  {
    var rows: seq<UserRow> := [];
    var i := 0;
    while i < |users|
      invariant 0 <= i <= |users|
      invariant |rows| == i
      invariant forall j :: 0 <= j < i ==> rows[j] == TransformUser(users[j], g, esc)
    {
      rows := rows + [TransformUser(users[i], g, esc)];
      i := i + 1;
    }
    d := Datatable(total, rows);
  }
}
